=== FILE: README.md ===
# esky `fstransact`: the deferred filesystem transaction, in Dafny

This project models the fallback `FSTransaction` of `esky/fstransact.py`, the
engine used where the operating system offers no transacted file API, together
with the `files_differ` comparison it relies on.

- `fs.dfy` (module `Fs`): the filesystem as an immutable `map<Path, Entry>`,
  where an entry is a file holding a `seq<bv8>` or a directory. It also holds
  the system calls the engine issues: `os.stat`, `open`, `os.rename`,
  `shutil.copy2`, `os.unlink` and `os.rmdir`. Each call succeeds whole or
  fails without effect. Errors that follow from the map itself are explicit:
  a missing path, a rename onto an existing path on Windows, a file where a
  directory is needed. Every other failure (permissions, a full disk, a
  non-empty directory) comes from a failure oracle `Call -> bool`, which the
  caller passes in.
- `compare.dfy` (module `Compare`): `files_differ`. The 256 KiB chunk loop is
  a recursive function, proved equal to plain inequality of the byte
  sequences.
- `safe_replace.dfy` (module `SafeReplace`): the backup-rename protocol of
  `_move` and `_copy`. On Windows, when the target `T` exists, `T` is renamed
  to `T.old`, the rename or copy runs, and then the backup is unlinked or
  renamed back. `sys.platform == "win32"` is the boolean parameter `win32`. It
  selects this branch and also the Windows rename rule: a rename onto an
  existing path fails.
- `transaction.dfy` (module `Transaction`): the queue `pending` as a
  `seq<Op>`, with `Op = Move | Copy | Remove`. `move`, `copy` and `remove`
  are enqueue functions that return a new transaction and no filesystem.
  `commit` is a left fold over the queue that stops at the first error.
  `CommitLoop` writes the same commit as the Python loop. `abort` empties
  the queue.
- `scenarios.dfy` (module `Scenarios`): whole transactions, each an enqueue
  sequence followed by a commit or an abort.

Three behaviours of the code a reader may not expect:

- `commit` does not clear `pending` (esky/fstransact.py:186-188), and no
  lifecycle state guards a second `commit` or a late `move`. `Commit`
  therefore returns only the filesystem outcome and leaves the transaction
  as it was.
- A failed restore has no error kind of its own. The restore rename's own
  `OSError` escapes in place of the original one (esky/fstransact.py:147,
  167). `Replace` states this exactly: the error is
  `Injected(RenameCall(T.old, T))` and the prior entry of `T` sits at `T.old`.
- `files_differ` answers "different" on a failed stat, but it does not
  swallow every error. Once both stats succeed and the sizes are equal, the
  call raises if either path cannot be opened, for instance because it is a
  directory. `move` and `copy` then raise too (esky/fstransact.py:50-52).
  `Compare.CompareRaises` names this case.

Three consequences of the code as written are proved:

- On Windows, a stale `T.old` makes every later queued `Move` or `Copy`
  (a `_move` or `_copy`) onto an existing `T` fail before anything changes.
  See the `AlreadyExists` clause of `SafeReplace.Replace`. A `move`
  between byte-identical files is queued as a `Remove` and an identical
  `copy` is not queued at all, so neither is affected
  (`Scenarios.IdenticalMoveRemovesSource`,
  `Scenarios.IdenticalCopyQueuesNothing`). When `T` is absent the backup
  branch is not taken, and the stale `T.old` is simply left alone
  (`Scenarios.StaleBackupIgnoredWithoutTarget`).
- On Windows, moving a missing `T.old` onto an existing `T` succeeds and
  changes nothing. The backup rename creates the source just before the move
  reads it. On other platforms the same move fails with "not found". See
  `Scenarios.MoveFromMissingBackupPath`.
- `move(x, x)` on a readable file compares `x` with itself, finds it
  identical and queues `Remove(x)` (esky/fstransact.py:136-139). Committing
  that deletes `x`. See `Scenarios.MoveOntoItselfDeletesFile`.

## Model

| member | source | states |
|---|---|---|
| Fs.Rename | esky/fstransact.py:143-155 | `os.rename` fails with "not found" for a missing source. On Windows it fails when the target exists. Otherwise it succeeds exactly when no kind mismatch or injected failure stops it. On success the target holds the source's entry, the source is gone, and no other path changes. |
| Fs.Copy2 | esky/fstransact.py:165-175 | `shutil.copy2` succeeds exactly when the source is a file, the destination is neither the source nor a directory, and the environment allows it. On success the destination holds the source's entry and nothing else changes. |
| Fs.CopyDestination | esky/fstransact.py:175 | `copy2` writes to the target itself unless the target is a directory. In that case it writes to the target joined with the source's base name. |
| Fs.BaseName | esky/fstransact.py:175 | The base name `copy2` uses is the longest suffix of the path without a '/'. Either it is the whole path or a '/' precedes it. |
| Fs.Join | esky/fstransact.py:175 | Joining a directory and a name gives the directory followed by the name, with at most one '/' inserted between them. |
| Fs.JoinInsertsSlashExactlyWhenNeeded | esky/fstransact.py:175 | A '/' is inserted between directory and name exactly when the directory is non-empty and does not already end in '/'. |
| Fs.Unlink | esky/fstransact.py:151-153 | `os.unlink` succeeds exactly on an existing file that the environment lets it remove. It removes that path only. |
| Fs.Rmdir | esky/fstransact.py:184 | `os.rmdir` succeeds exactly on an existing directory that the environment lets it remove. It removes that path only, and a missing path gives "not found". |
| Compare.Read | esky/fstransact.py:54-60 | `read(262144)` returns a prefix of the remaining stream of at most one chunk. It is shorter only at end of stream. |
| Compare.ChunkedDiffer | esky/fstransact.py:54-61 | The chunk loop answers "same" for equal streams and "different" when one stream ends before the other. `Compare.ChunkedDifferIsInequality` completes this to an if-and-only-if. |
| Compare.ChunkedDifferIsInequality | esky/fstransact.py:54-61 | The chunked loop answers "different" exactly when the two byte sequences differ. This holds for every chunk size and every pair of lengths, so a mismatching chunk or one stream ending first both give "different". |
| Compare.FilesDiffer | esky/fstransact.py:41-65 | A failed stat or a missing path gives "different". Unequal sizes give "different". The answer is "same" exactly when both paths are readable files with equal bytes. The call raises exactly when both stats succeed and the sizes match but one path cannot be opened, and it names the first such path. |
| SafeReplace.Place | esky/fstransact.py:145-175 | The step of `_move` or `_copy` fails with "not found" for a missing source. A successful rename puts the source's entry at the target and removes the source when the two paths differ. A successful copy puts the source's file at the copy destination. |
| SafeReplace.PlaceTouchesOnlyItsPaths | esky/fstransact.py:145-175 | A successful step changes no path other than its step's paths: for a rename the source, the target and `T.old`; for a copy the target, `T.old` and the copy-into-directory path. |
| SafeReplace.ReplaceTouchesOnlyItsPaths | esky/fstransact.py:141-175 | Whether `_move` or `_copy` succeeds or fails, it changes no path other than the target and `T.old`, plus the source for `_move` or the copy-into-directory path for `_copy`. |
| SafeReplace.Replace | esky/fstransact.py:141-175 | Without the backup branch, the rename or copy runs alone. With it, a stale or refused backup fails before any change, a refused backup rename raising its own error. Once the backup is taken, the call succeeds exactly when the step succeeds. On success the target holds the source's prior entry, a moved source is gone, a copied source is intact, the backup remains only if its unlink failed, and nothing else changes. A source at `T.old` itself is the stashed target: a move then leaves the filesystem as it was, and a copy changes at most `T.old`. On failure after the backup, a successful restore returns the whole filesystem to its prior state and re-raises the step's error. A failed restore raises the restore's own error and leaves the target's entry at `T.old`. |
| SafeReplace.FailureNeverLosesTarget | esky/fstransact.py:144-148 | If a move or copy onto an existing target fails, the target's prior entry is still at the target or at `T.old`. |
| Transaction.Init | esky/fstransact.py:132-133 | A new transaction has an empty queue. |
| Transaction.EnqueueRemove | esky/fstransact.py:177-178 | `remove` appends exactly `Remove(target)`. Earlier entries stay as they were. |
| Transaction.EnqueueMove | esky/fstransact.py:135-139 | `move` appends exactly one entry and leaves earlier entries as they were. The entry is `Remove(source)` when both files are readable with equal bytes, otherwise `Move(source, target)`. The call raises exactly when the comparison raises. |
| Transaction.EnqueueCopy | esky/fstransact.py:157-159 | `copy` appends `Copy(source, target)` unless both files are readable with equal bytes, in which case the queue is unchanged. The call raises exactly when the comparison raises. |
| Transaction.Abort | esky/fstransact.py:190-191 | `abort` empties the queue. |
| Transaction.ApplyRemove | esky/fstransact.py:180-184 | `_remove` unlinks a file and rmdirs anything else, so a missing target fails with "not found". On success only the target is gone. On failure nothing changes. |
| Transaction.ApplyOp | esky/fstransact.py:188 | Replaying a `Remove` of a missing path fails with "not found" and changes nothing. A successful `Remove` deletes its target. A move or copy whose source is missing fails (unless the source is the target's own backup path). |
| Transaction.ApplyOpTouchesOnlyItsPaths | esky/fstransact.py:141-188 | Replaying one queued operation changes only the paths that operation names. |
| Transaction.Commit | esky/fstransact.py:186-188 | The fold itself. `Transaction.CommitAppend`, `Transaction.CommitFailureAt` and `Transaction.CommitStopsAtFirstError` state its order and its stop at the first error. |
| Transaction.CommitTouchesOnlyQueuedPaths | esky/fstransact.py:186-188 | A commit, whether complete or stopped by an error, changes only paths that some queued operation names. |
| Transaction.CommitAppend | esky/fstransact.py:186-188 | Committing `a + b` commits `a` and then, only if that succeeded, commits `b` from the resulting filesystem. Operations apply in enqueue order. |
| Transaction.CommitFailureAt | esky/fstransact.py:186-188 | A failed commit has a failing index `k`. Every entry before `k` succeeded and stays applied. The commit's result is entry `k`'s own failure, and no later entry ran. |
| Transaction.CommitStopsAtFirstError | esky/fstransact.py:186-188 | If every entry before `k` succeeds and entry `k` fails, the commit fails with exactly that failure. |
| Transaction.CommitLoop | esky/fstransact.py:186-188 | The Python loop over `pending` computes the same outcome as the fold. |
| Transaction.ApplyOpFailureKeepsTarget | esky/fstransact.py:141-184 | If any queued operation fails on an existing target, the target's prior entry survives, either in place or at its backup path. |
| Scenarios.MoveOntoExistingFile | esky/fstransact.py:135-155 | With `a.txt` = "hello" and `b.txt` = "world", `move` followed by `commit` leaves only `b.txt` = "hello" on both platforms. No `a.txt` and no `.old` file remain. |
| Scenarios.IdenticalMoveRemovesSource | esky/fstransact.py:135-139 | Moving a file onto an identical file queues only `Remove(source)`. Committing it removes the source and nothing else. |
| Scenarios.MoveOntoItselfDeletesFile | esky/fstransact.py:135-139 | `move(x, x)` on a readable file queues `Remove(x)`, and committing it deletes `x`. |
| Scenarios.StaleBackupIgnoredWithoutTarget | esky/fstransact.py:142-155 | On Windows, a move onto a missing `t` succeeds by a direct rename even when a stale `t.old` exists. `t.old` is left as it was. |
| Scenarios.IdenticalCopyQueuesNothing | esky/fstransact.py:157-159 | Copying a file onto an identical file leaves the transaction unchanged. |
| Scenarios.AbortIsNoop | esky/fstransact.py:190-191 | After `abort`, committing the queue changes no filesystem. |
| Scenarios.RemoveThenMoveFails | esky/fstransact.py:177-188 | `remove(x)` followed by `move(x, y)` fails at commit with "x not found". The removal stays applied. |
| Scenarios.MoveFromMissingBackupPath | esky/fstransact.py:142-155 | On Windows, moving a missing `t.old` onto an existing `t` commits without error and changes nothing. Elsewhere the same move fails with "not found". |

## Left out

- The native Windows backend (esky/fstransact.py:68-121) and the import-time detection of the kernel transaction API (esky/fstransact.py:20-38). These are foreign calls whose atomicity comes from the operating system. That backend also passes `source` where it means `target` (esky/fstransact.py:84, 99) and uses an undefined `source` in `remove` (esky/fstransact.py:111).
- Real file I/O. `open`, `read`, `os.stat`, `os.rename`, `shutil.copy2`, `os.unlink` and `os.rmdir` are functions on the map. `copy2`'s metadata preservation is copying the whole entry.
- Partial effects of a failing call. Every call is all-or-nothing, so a `copy2` that fails after writing part of `T` is not modelled. On Windows such a half-written `T` would also block the restore rename.
- Read errors in the middle of the comparison, and files that change between the stat and the reads. Each file's size always matches its content.
- Directory contents. A directory entry is a leaf: renaming a directory does not carry paths beneath it, and `rmdir` of a non-empty directory fails only through the oracle.
- Path syntax beyond `/`. Windows `\` separators in `basename`, symbolic and hard links, and `os.path.exists` or `os.path.isfile` answering false on a permission error are not modelled.
- The failure oracle answers per call. Two identical calls in one commit therefore fail or succeed together.
- Concurrent mutation by other processes, and crash durability.

=== FILE: compare.dfy ===
/**
 `files_differ`: decides whether two files differ, so that a move or copy
 whose source already equals its target can be skipped. It fails open: a path
 that cannot be stat'ed counts as different.
 */
module Compare {
  import opened Fs

  /** The chunk size of the comparison loop, 256 KiB. */
  const ChunkSize: nat := 1024 * 256

  /** `f.read(n)` on a stream positioned at `s`: up to `n` bytes, fewer only at end of stream. */
  function Read(s: Bytes, n: nat): (chunk: Bytes)
    ensures chunk <= s && |chunk| <= n
    ensures |chunk| < n ==> chunk == s
  {
    if |s| <= n then s else s[..n]
  }

  /** The comparison loop: read a chunk from each stream; while both chunks
      are non-empty, stop with "different" on a mismatch and read on
      otherwise; when either is empty, the streams differ unless both are. */
  function ChunkedDiffer(n: nat, a: Bytes, b: Bytes): (differ: bool)
    requires n > 0
    ensures a == b ==> !differ
    ensures |a| != |b| ==> differ
    decreases |a|
  {
    var d1 := Read(a, n);
    var d2 := Read(b, n);
    if d1 == [] || d2 == [] then d1 != d2
    else if d1 != d2 then true
    else ChunkedDiffer(n, a[|d1|..], b[|d2|..])
  }

  /** The chunked loop decides plain inequality of the two byte streams, for
      every chunk size and whatever the lengths of the streams. */
  lemma {:induction false} ChunkedDifferIsInequality(n: nat, a: Bytes, b: Bytes)
    requires n > 0
    ensures ChunkedDiffer(n, a, b) <==> a != b
    decreases |a|
  {
    var d1 := Read(a, n);
    var d2 := Read(b, n);
    if d1 == [] || d2 == [] {
      assert d1 == [] <==> a == [];
      assert d2 == [] <==> b == [];
    } else if d1 != d2 {
    } else {
      ChunkedDifferIsInequality(n, a[|d1|..], b[|d2|..]);
      assert a == d1 + a[|d1|..];
      assert b == d2 + b[|d2|..];
    }
  }

  /** Both paths are regular files that can be stat'ed and opened and that hold the same bytes. */
  predicate SameContent(fs: FileSystem, fail: Oracle, a: Path, b: Path)
  {
    Readable(fs, fail, a) && Readable(fs, fail, b) && fs[a].data == fs[b].data
  }

  /** The comparison gets past the stat and size checks but cannot open one of
      the two paths (a directory, or an `open` the environment refuses). */
  predicate CompareRaises(fs: FileSystem, fail: Oracle, a: Path, b: Path)
  {
    && StatOk(fs, fail, a) && StatOk(fs, fail, b)
    && Size(fs[a]) == Size(fs[b])
    && !(Readable(fs, fail, a) && Readable(fs, fail, b))
  }

  /** The error `open` raises for `p`. */
  function OpenError(fs: FileSystem, p: Path): Error
    requires p in fs
  {
    if fs[p].Dir? then IsADirectory(p) else Injected(OpenCall(p))
  }

  /** `files_differ(a, b)`. Both stats come first and either failing answers
      "different"; unequal sizes answer "different"; otherwise both files are
      opened, `a` first, and compared chunk by chunk. */
  function FilesDiffer(fs: FileSystem, fail: Oracle, a: Path, b: Path): (r: Result<bool>)
    ensures !StatOk(fs, fail, a) || !StatOk(fs, fail, b) ==> r == Ok(true)
    ensures a !in fs || b !in fs ==> r == Ok(true)
    ensures StatOk(fs, fail, a) && StatOk(fs, fail, b) && Size(fs[a]) != Size(fs[b]) ==> r == Ok(true)
    ensures r.Err? <==> CompareRaises(fs, fail, a, b)
    ensures r == Ok(false) <==> SameContent(fs, fail, a, b)
    ensures r.Err? && !Readable(fs, fail, a) ==> r.error == OpenError(fs, a)
    ensures r.Err? && Readable(fs, fail, a) ==> r.error == OpenError(fs, b)
  {
    if !StatOk(fs, fail, a) || !StatOk(fs, fail, b) then Ok(true)
    else if Size(fs[a]) != Size(fs[b]) then Ok(true)
    else if !Readable(fs, fail, a) then Err(OpenError(fs, a))
    else if !Readable(fs, fail, b) then Err(OpenError(fs, b))
    else
      ChunkedDifferIsInequality(ChunkSize, fs[a].data, fs[b].data);
      Ok(ChunkedDiffer(ChunkSize, fs[a].data, fs[b].data))
  }
}

=== FILE: fs.dfy ===
/**
 An abstract filesystem: a finite map from path to entry, and the handful of
 system calls the transaction engine issues against it (`os.stat`, `open`,
 `os.rename`, `shutil.copy2`, `os.unlink`, `os.rmdir`).

 Every call either succeeds as a whole or fails without effect. Whether a
 call fails for an environmental reason (permissions, a full disk, a
 non-empty directory, ...) is decided by a failure oracle passed in by the
 caller; the errors that follow from the state of the map itself (a missing
 path, a rename onto an existing path on Windows, a file where a directory is
 needed) are modelled explicitly.
 */
module Fs {

  type Byte = bv8
  type Bytes = seq<Byte>
  type Path = string

  /** A directory is a leaf here: its contents are not part of the entry,
      only the size `os.stat` reports for it. */
  datatype Entry = File(data: Bytes) | Dir(size: nat)

  type FileSystem = map<Path, Entry>

  /** `st_size` as reported by `os.stat`. */
  function Size(e: Entry): nat
  {
    match e
    case File(data) => |data|
    case Dir(size) => size
  }

  /** The system calls the engine makes; the failure oracle is asked about each. */
  datatype Call =
    | StatCall(path: Path)
    | OpenCall(path: Path)
    | RenameCall(src: Path, dst: Path)
    | CopyCall(src: Path, dst: Path)
    | UnlinkCall(path: Path)
    | RmdirCall(path: Path)

  /** `fail(c)` is true when the environment makes call `c` fail. */
  type Oracle = Call -> bool

  /** The environment in which nothing fails for an external reason. */
  const NeverFail: Oracle := (c: Call) => false

  /** The kinds of `OSError` a call can raise. */
  datatype Error =
    | NotFound(path: Path)
    | AlreadyExists(path: Path)
    | IsADirectory(path: Path)
    | NotADirectory(path: Path)
    | SameFile(path: Path)
    | Injected(call: Call)

  datatype Result<T> = Ok(value: T) | Err(error: Error)

  /** The state of a multi-step operation when it returns: it either
      completed, or raised `error` leaving the filesystem as `fs`. */
  datatype Outcome = Done(fs: FileSystem) | Failed(fs: FileSystem, error: Error)

  /** Path `p` is in the same state in `fs` and `fs'`. */
  predicate SameAt(fs: FileSystem, fs': FileSystem, p: Path)
  {
    (p in fs <==> p in fs') && (p in fs ==> fs[p] == fs'[p])
  }

  /** Every path outside `touched` is in the same state in `fs` and `fs'`. */
  ghost predicate UnchangedExcept(fs: FileSystem, fs': FileSystem, touched: set<Path>)
  {
    forall p :: p !in touched ==> SameAt(fs, fs', p)
  }

  /** Changes confined to `a` followed by changes confined to `b` are confined to `a + b`. */
  lemma UnchangedExceptTrans(fs: FileSystem, fs': FileSystem, fs'': FileSystem, a: set<Path>, b: set<Path>)
    requires UnchangedExcept(fs, fs', a) && UnchangedExcept(fs', fs'', b)
    ensures UnchangedExcept(fs, fs'', a + b)
  {
  }

  /** A confinement to `a` is a confinement to any superset of `a`. */
  lemma UnchangedExceptMono(fs: FileSystem, fs': FileSystem, a: set<Path>, b: set<Path>)
    requires UnchangedExcept(fs, fs', a) && a <= b
    ensures UnchangedExcept(fs, fs', b)
  {
  }

  /** `os.stat(p)` succeeds. */
  predicate StatOk(fs: FileSystem, fail: Oracle, p: Path)
  {
    p in fs && !fail(StatCall(p))
  }

  /** `open(p, "rb")` succeeds: `p` is an existing regular file that may be opened. */
  predicate Readable(fs: FileSystem, fail: Oracle, p: Path)
  {
    StatOk(fs, fail, p) && fs[p].File? && !fail(OpenCall(p))
  }

  /** The refusals of `os.rename(src, dst)` that follow from the state of the
      map: on Windows the target must not exist; elsewhere an existing target
      is replaced, but only by an entry of the same kind. */
  predicate RenameRefused(fs: FileSystem, win32: bool, src: Path, dst: Path)
    requires src in fs
  {
    if win32 then dst in fs
    else dst in fs && src != dst && fs[src].File? != fs[dst].File?
  }

  /** `os.rename(src, dst)`. */
  function Rename(fs: FileSystem, win32: bool, fail: Oracle, src: Path, dst: Path): (r: Result<FileSystem>)
    ensures src !in fs ==> r == Err(NotFound(src))
    ensures win32 && src in fs && dst in fs ==> r == Err(AlreadyExists(dst))
    ensures r.Ok? <==> src in fs && !RenameRefused(fs, win32, src, dst) && !fail(RenameCall(src, dst))
    ensures r.Ok? ==> dst in r.value && r.value[dst] == fs[src]
    ensures r.Ok? && src != dst ==> src !in r.value
    ensures r.Ok? ==> UnchangedExcept(fs, r.value, {src, dst})
  {
    if src !in fs then Err(NotFound(src))
    else if win32 && dst in fs then Err(AlreadyExists(dst))
    else if RenameRefused(fs, win32, src, dst) then
      (if fs[src].File? then Err(IsADirectory(dst)) else Err(NotADirectory(dst)))
    else if fail(RenameCall(src, dst)) then Err(Injected(RenameCall(src, dst)))
    else Ok((fs - {src})[dst := fs[src]])
  }

  /** `os.path.basename`: the part of `p` after its last '/'. */
  function BaseName(p: Path): (b: Path)
    ensures |b| <= |p| && forall i :: 0 <= i < |b| ==> b[i] == p[|p| - |b| + i]
    ensures '/' !in b
    ensures |b| < |p| ==> p[|p| - |b| - 1] == '/'
    decreases |p|
  {
    if p == [] || p[|p| - 1] == '/' then []
    else BaseName(p[..|p| - 1]) + [p[|p| - 1]]
  }

  /** `os.path.join(dir, name)` for a `name` holding no '/'. */
  function Join(dir: Path, name: Path): (r: Path)
    ensures |r| == |dir| + |name| || (|r| == |dir| + 1 + |name| && r[|dir|] == '/')
    ensures r[..|dir|] == dir && r[|r| - |name|..] == name
  {
    if dir == [] || dir[|dir| - 1] == '/' then dir + name else dir + "/" + name
  }

  /** The separator is inserted exactly when `dir` is non-empty and does not
      already end in '/', so no join produces a doubled '/'. */
  lemma JoinInsertsSlashExactlyWhenNeeded(dir: Path, name: Path)
    ensures |Join(dir, name)| == |dir| + |name| <==> dir == [] || dir[|dir| - 1] == '/'
    ensures |Join(dir, name)| == |dir| + 1 + |name| <==> dir != [] && dir[|dir| - 1] != '/'
  {
  }

  /** Where `shutil.copy2(src, dst)` writes: into `dst` when it is a directory. */
  function CopyDestination(fs: FileSystem, src: Path, dst: Path): (dest: Path)
    ensures dst !in fs || fs[dst].File? ==> dest == dst
    ensures dst in fs && fs[dst].Dir? ==> dest == Join(dst, BaseName(src))
  {
    if dst in fs && fs[dst].Dir? then Join(dst, BaseName(src)) else dst
  }

  /** `shutil.copy2(src, dst)`: the entry of `src` (content and metadata)
      is written at the copy destination. */
  function Copy2(fs: FileSystem, fail: Oracle, src: Path, dst: Path): (r: Result<FileSystem>)
    ensures src !in fs ==> r == Err(NotFound(src))
    ensures r.Ok? <==>
              && src in fs && fs[src].File?
              && CopyDestination(fs, src, dst) != src
              && (CopyDestination(fs, src, dst) !in fs || fs[CopyDestination(fs, src, dst)].File?)
              && !fail(CopyCall(src, dst))
    ensures r.Ok? ==> var dest := CopyDestination(fs, src, dst);
                      dest in r.value && r.value[dest] == fs[src] && UnchangedExcept(fs, r.value, {dest})
  {
    var dest := CopyDestination(fs, src, dst);
    if src in fs && dest == src then Err(SameFile(src))
    else if src !in fs then Err(NotFound(src))
    else if fs[src].Dir? then Err(IsADirectory(src))
    else if dest in fs && fs[dest].Dir? then Err(IsADirectory(dest))
    else if fail(CopyCall(src, dst)) then Err(Injected(CopyCall(src, dst)))
    else Ok(fs[dest := fs[src]])
  }

  /** `os.unlink(p)`: removes a file. */
  function Unlink(fs: FileSystem, fail: Oracle, p: Path): (r: Result<FileSystem>)
    ensures p !in fs ==> r == Err(NotFound(p))
    ensures r.Ok? <==> p in fs && fs[p].File? && !fail(UnlinkCall(p))
    ensures r.Ok? ==> p !in r.value && UnchangedExcept(fs, r.value, {p})
  {
    if p !in fs then Err(NotFound(p))
    else if fs[p].Dir? then Err(IsADirectory(p))
    else if fail(UnlinkCall(p)) then Err(Injected(UnlinkCall(p)))
    else Ok(fs - {p})
  }

  /** `os.rmdir(p)`: removes a directory; a non-empty one is refused through the oracle. */
  function Rmdir(fs: FileSystem, fail: Oracle, p: Path): (r: Result<FileSystem>)
    ensures p !in fs ==> r == Err(NotFound(p))
    ensures r.Ok? <==> p in fs && fs[p].Dir? && !fail(RmdirCall(p))
    ensures r.Ok? ==> p !in r.value && UnchangedExcept(fs, r.value, {p})
  {
    if p !in fs then Err(NotFound(p))
    else if fs[p].File? then Err(NotADirectory(p))
    else if fail(RmdirCall(p)) then Err(Injected(RmdirCall(p)))
    else Ok(fs - {p})
  }
}

=== FILE: safe_replace.dfy ===
/**
 The backup-rename protocol shared by `_move` and `_copy`: on Windows, when
 the target `T` exists, `T` is first renamed to `T + ".old"`; then the step
 (a rename or a `copy2` of the source onto `T`) runs; on success the backup
 is unlinked, a failure to unlink it being swallowed; on failure the backup
 is renamed back to `T` and the step's error is raised again. Otherwise the
 step runs directly.
 */
module SafeReplace {
  import opened Fs

  /** The step that puts the source at the target. */
  datatype Step = MoveStep | CopyStep

  /** The backup path of a target. */
  function Backup(t: Path): (b: Path)
    ensures t < b
  {
    t + ".old"
  }

  /** The state after the backup rename: `t` is gone and its entry sits at its backup path. */
  function Stashed(fs: FileSystem, t: Path): (fs': FileSystem)
    requires t in fs
    ensures t !in fs' && Backup(t) in fs' && fs'[Backup(t)] == fs[t]
    ensures UnchangedExcept(fs, fs', {t, Backup(t)})
  {
    (fs - {t})[Backup(t) := fs[t]]
  }

  /** The step itself: `os.rename(s, t)` or `shutil.copy2(s, t)`. */
  function Place(fs: FileSystem, win32: bool, fail: Oracle, step: Step, s: Path, t: Path): (r: Result<FileSystem>)
    ensures s !in fs ==> r == Err(NotFound(s))
    ensures step == MoveStep && r.Ok? ==> t in r.value && r.value[t] == fs[s] && (s != t ==> s !in r.value)
    ensures step == CopyStep && r.Ok? ==>
              var dest := CopyDestination(fs, s, t);
              dest in r.value && r.value[dest] == fs[s] && fs[s].File?
  {
    match step
    case MoveStep => Rename(fs, win32, fail, s, t)
    case CopyStep => Copy2(fs, fail, s, t)
  }

  /** The paths one move or copy of `s` onto `t` may change: the target and
      its backup, plus the source of a move, or the file `copy2` creates
      when `t` is a directory. */
  function Touched(step: Step, s: Path, t: Path): set<Path>
  {
    match step
    case MoveStep => {s, t, Backup(t)}
    case CopyStep => {t, Backup(t), Join(t, BaseName(s))}
  }

  /** The backup branch is taken only on Windows and only when the target exists. */
  predicate TakesBackup(fs: FileSystem, win32: bool, t: Path)
  {
    win32 && t in fs
  }

  /** One `_move` (step `MoveStep`) or `_copy` (step `CopyStep`) of `s` onto `t`. */
  function Replace(fs: FileSystem, win32: bool, fail: Oracle, step: Step, s: Path, t: Path): (o: Outcome)
    // Without the backup branch the step runs on its own: its error
    // propagates and leaves the filesystem as it was.
    ensures !TakesBackup(fs, win32, t) ==>
              (o.Done? <==> Place(fs, win32, fail, step, s, t).Ok?)
              && (o.Done? ==> o.fs == Place(fs, win32, fail, step, s, t).value)
              && (o.Failed? ==> o.fs == fs && o.error == Place(fs, win32, fail, step, s, t).error)
    // A stale backup, or a refused backup rename, fails the call before anything changes.
    ensures TakesBackup(fs, win32, t) && Backup(t) in fs ==> o == Failed(fs, AlreadyExists(Backup(t)))
    ensures TakesBackup(fs, win32, t) && fail(RenameCall(t, Backup(t))) ==> o.Failed? && o.fs == fs
    ensures TakesBackup(fs, win32, t) && Backup(t) !in fs && fail(RenameCall(t, Backup(t))) ==>
              o == Failed(fs, Injected(RenameCall(t, Backup(t))))
    // Once the backup is taken, the call succeeds exactly when the step
    // succeeds on the stashed filesystem.
    ensures TakesBackup(fs, win32, t) && Backup(t) !in fs && !fail(RenameCall(t, Backup(t))) ==>
              (o.Done? <==> Place(Stashed(fs, t), win32, fail, step, s, t).Ok?)
    // Success: the target holds the source's prior entry; a moved source is
    // gone and a copied one untouched; the backup is gone unless its unlink
    // failed; nothing else changes.
    ensures TakesBackup(fs, win32, t) && o.Done? && s != Backup(t) ==>
              && s in fs && s != t && Backup(t) !in fs
              && t in o.fs && o.fs[t] == fs[s]
              && (step == MoveStep ==> s !in o.fs)
              && (step == CopyStep ==> s in o.fs && o.fs[s] == fs[s])
              && (Backup(t) in o.fs <==> fs[t].Dir? || fail(UnlinkCall(Backup(t))))
              && (Backup(t) in o.fs ==> o.fs[Backup(t)] == fs[t])
              && UnchangedExcept(fs, o.fs, {s, t, Backup(t)})
    // A source at the backup path itself is the stashed target: the call
    // succeeds and the target keeps its own prior entry.
    ensures TakesBackup(fs, win32, t) && o.Done? && s == Backup(t) ==>
              && Backup(t) !in fs && t in o.fs && o.fs[t] == fs[t]
              && (step == MoveStep ==> o.fs == fs)
              && (step == CopyStep ==> UnchangedExcept(fs, o.fs, {Backup(t)}))
    // Failure after the backup was taken: either the restore succeeded, and
    // the whole filesystem is as before and the step's own error is raised,
    // or the restore itself was refused, and its error is raised with the
    // target's prior entry left at the backup path.
    ensures TakesBackup(fs, win32, t) && o.Failed? && Backup(t) !in fs && !fail(RenameCall(t, Backup(t))) ==>
              if fail(RenameCall(Backup(t), t)) then
                o == Failed(Stashed(fs, t), Injected(RenameCall(Backup(t), t)))
              else
                && o.fs == fs
                && Place(Stashed(fs, t), win32, fail, step, s, t).Err?
                && o.error == Place(Stashed(fs, t), win32, fail, step, s, t).error
  {
    if TakesBackup(fs, win32, t) then
      match Rename(fs, win32, fail, t, Backup(t))
      case Err(e) => Failed(fs, e)
      case Ok(staged) =>
        assert staged == Stashed(fs, t);
        match Place(staged, win32, fail, step, s, t)
        case Err(e) =>
          (match Rename(staged, win32, fail, Backup(t), t)
           case Ok(restored) =>
             assert restored == fs;
             Failed(restored, e)
           case Err(e') => Failed(staged, e'))
        case Ok(placed) =>
          (match Unlink(placed, fail, Backup(t))
           case Ok(cleaned) => Done(cleaned)
           case Err(_) => Done(placed))
    else
      match Place(fs, win32, fail, step, s, t)
      case Err(e) => Failed(fs, e)
      case Ok(placed) => Done(placed)
  }

  /** Whatever happens, the call changes only the paths it names. */
  lemma ReplaceTouchesOnlyItsPaths(fs: FileSystem, win32: bool, fail: Oracle, step: Step, s: Path, t: Path)
    ensures UnchangedExcept(fs, Replace(fs, win32, fail, step, s, t).fs, Touched(step, s, t))
  {
    var touched := Touched(step, s, t);
    var o := Replace(fs, win32, fail, step, s, t);
    if TakesBackup(fs, win32, t) {
      match Rename(fs, win32, fail, t, Backup(t))
      case Err(_) =>
        assert o.fs == fs;
      case Ok(staged) =>
        assert UnchangedExcept(fs, staged, {t, Backup(t)});
        UnchangedExceptMono(fs, staged, {t, Backup(t)}, touched);
        match Place(staged, win32, fail, step, s, t)
        case Err(_) =>
          assert o.fs == fs || o.fs == staged;
        case Ok(placed) =>
          PlaceTouchesOnlyItsPaths(staged, win32, fail, step, s, t);
          UnchangedExceptTrans(fs, staged, placed, touched, touched);
          assert touched + touched == touched;
          match Unlink(placed, fail, Backup(t))
          case Ok(cleaned) =>
            assert o.fs == cleaned;
            UnchangedExceptTrans(fs, placed, cleaned, touched, {Backup(t)});
            assert touched + {Backup(t)} == touched;
          case Err(_) =>
            assert o.fs == placed;
    } else {
      PlaceTouchesOnlyItsPaths(fs, win32, fail, step, s, t);
    }
  }

  /** The step alone changes only the paths the call names. */
  lemma PlaceTouchesOnlyItsPaths(fs: FileSystem, win32: bool, fail: Oracle, step: Step, s: Path, t: Path)
    ensures Place(fs, win32, fail, step, s, t).Ok? ==>
              UnchangedExcept(fs, Place(fs, win32, fail, step, s, t).value, Touched(step, s, t))
  {
    var r := Place(fs, win32, fail, step, s, t);
    if r.Ok? {
      match step
      case MoveStep =>
        UnchangedExceptMono(fs, r.value, {s, t}, Touched(step, s, t));
      case CopyStep =>
        var dest := CopyDestination(fs, s, t);
        assert dest in Touched(step, s, t);
        UnchangedExceptMono(fs, r.value, {dest}, Touched(step, s, t));
    }
  }

  /** Whatever happens, a target that existed is never lost when the call
      fails: its prior entry is still at the target or at its backup path. */
  lemma FailureNeverLosesTarget(fs: FileSystem, win32: bool, fail: Oracle, step: Step, s: Path, t: Path)
    requires t in fs
    requires Replace(fs, win32, fail, step, s, t).Failed?
    ensures var o := Replace(fs, win32, fail, step, s, t);
            (t in o.fs && o.fs[t] == fs[t]) || (Backup(t) in o.fs && o.fs[Backup(t)] == fs[t])
  {
  }
}

=== FILE: scenarios.dfy ===
/**
 Whole-transaction behaviour: sequences of enqueue calls followed by
 `commit` or `abort`, in an environment where nothing fails for an external
 reason.
 */
module Scenarios {
  import opened Fs
  import opened Transaction
  import SafeReplace

  const Hello: Bytes := [0x68, 0x65, 0x6c, 0x6c, 0x6f]
  const World: Bytes := [0x77, 0x6f, 0x72, 0x6c, 0x64]

  /** `a.txt` = "hello" and `b.txt` = "world"; `move(a.txt, b.txt)` then
      `commit()` leaves `b.txt` = "hello", no `a.txt` and no `b.txt.old`,
      on every platform. */
  lemma MoveOntoExistingFile(win32: bool)
    ensures var fs := map["a.txt" := File(Hello), "b.txt" := File(World)];
            var r := EnqueueMove(Init(), fs, NeverFail, "a.txt", "b.txt");
            && r.Ok?
            && r.value.pending == [Move("a.txt", "b.txt")]
            && Commit(fs, win32, NeverFail, r.value.pending) == Done(map["b.txt" := File(Hello)])
  {
    var fs := map["a.txt" := File(Hello), "b.txt" := File(World)];
    assert Hello[0] != World[0];
    assert !Compare.SameContent(fs, NeverFail, "a.txt", "b.txt");
    assert "b.txt.old" !in fs;
    assert "a.txt" != "b.txt" && "a.txt" != "b.txt.old" && "b.txt" != "b.txt.old";
    var moved := map["b.txt" := File(Hello)];
    if win32 {
      var staged := map["a.txt" := File(Hello), "b.txt.old" := File(World)];
      assert (fs - {"b.txt"})["b.txt.old" := fs["b.txt"]] == staged;
      assert Rename(fs, true, NeverFail, "b.txt", "b.txt.old") == Ok(staged);
      var placed := map["b.txt" := File(Hello), "b.txt.old" := File(World)];
      assert (staged - {"a.txt"})["b.txt" := staged["a.txt"]] == placed;
      assert Rename(staged, true, NeverFail, "a.txt", "b.txt") == Ok(placed);
      assert placed - {"b.txt.old"} == moved;
      assert Unlink(placed, NeverFail, "b.txt.old") == Ok(moved);
    } else {
      assert (fs - {"a.txt"})["b.txt" := fs["a.txt"]] == moved;
      assert Rename(fs, false, NeverFail, "a.txt", "b.txt") == Ok(moved);
    }
  }

  /** `move(a, b)` of two byte-identical files queues only the removal of
      `a`, and committing it removes `a` and nothing else. */
  lemma IdenticalMoveRemovesSource(fs: FileSystem, win32: bool, a: Path, b: Path)
    requires a != b && a in fs && b in fs
    requires fs[a].File? && fs[b].File? && fs[a].data == fs[b].data
    ensures var r := EnqueueMove(Init(), fs, NeverFail, a, b);
            && r.Ok?
            && r.value.pending == [Remove(a)]
            && Commit(fs, win32, NeverFail, r.value.pending) == Done(fs - {a})
  {
  }

  /** `move(x, x)` of a readable file compares the file with itself, finds
      it identical and queues `Remove(x)`: the commit deletes the file. */
  lemma MoveOntoItselfDeletesFile(fs: FileSystem, win32: bool, x: Path)
    requires x in fs && fs[x].File?
    ensures var r := EnqueueMove(Init(), fs, NeverFail, x, x);
            && r.Ok?
            && r.value.pending == [Remove(x)]
            && Commit(fs, win32, NeverFail, r.value.pending) == Done(fs - {x})
  {
  }

  /** A stale `t.old` does not stop a move onto a missing `t`: the backup
      branch needs an existing target, so the rename runs directly. */
  lemma StaleBackupIgnoredWithoutTarget()
    ensures var fs := map["s" := File([1]), "t.old" := File([2])];
            Commit(fs, true, NeverFail, [Move("s", "t")]) == Done(map["t" := File([1]), "t.old" := File([2])])
  {
    var fs := map["s" := File([1]), "t.old" := File([2])];
    assert "t" !in fs;
    assert (fs - {"s"})["t" := fs["s"]] == map["t" := File([1]), "t.old" := File([2])];
  }

  /** `copy(a, b)` of two byte-identical files queues nothing, so the commit
      changes nothing that it would not have changed anyway. */
  lemma IdenticalCopyQueuesNothing(tx: Transaction, fs: FileSystem, a: Path, b: Path)
    requires a in fs && b in fs
    requires fs[a].File? && fs[b].File? && fs[a].data == fs[b].data
    ensures EnqueueCopy(tx, fs, NeverFail, a, b) == Ok(tx)
  {
  }

  /** `abort()` after any number of enqueues leaves a queue whose commit is
      the identity on every filesystem. */
  lemma AbortIsNoop(tx: Transaction, fs: FileSystem, win32: bool, fail: Oracle)
    ensures Commit(fs, win32, fail, Abort(tx).pending) == Done(fs)
  {
  }

  /** `remove(x)` followed by `move(x, y)` fails at commit with "x not
      found": the removal runs first, so the move (or, for identical files,
      the second removal) finds no `x`. The removal stays applied. */
  lemma RemoveThenMoveFails(fs: FileSystem, win32: bool, x: Path, y: Path)
    requires x in fs && fs[x].File?
    requires y !in fs || fs[y].File?
    requires SafeReplace.Backup(y) !in fs
    ensures var r := EnqueueMove(EnqueueRemove(Init(), x), fs, NeverFail, x, y);
            && r.Ok?
            && Commit(fs, win32, NeverFail, r.value.pending) == Failed(fs - {x}, NotFound(x))
  {
  }

  /** On Windows, a move whose source is the target's own backup path, while
      that path does not exist, succeeds at commit and leaves the filesystem
      as it was: the backup rename creates the source just before the move
      reads it. Elsewhere the same queue fails with "not found". */
  lemma MoveFromMissingBackupPath(data: Bytes)
    ensures var fs := map["t" := File(data)];
            var r := EnqueueMove(Init(), fs, NeverFail, "t.old", "t");
            && r.Ok?
            && r.value.pending == [Move("t.old", "t")]
            && Commit(fs, true, NeverFail, r.value.pending) == Done(fs)
            && Commit(fs, false, NeverFail, r.value.pending) == Failed(fs, NotFound("t.old"))
  {
    var fs := map["t" := File(data)];
    assert SafeReplace.Backup("t") == "t.old";
    assert "t.old" !in fs;
    var staged := map["t.old" := File(data)];
    assert Rename(fs, true, NeverFail, "t", "t.old") == Ok(staged);
    assert Rename(staged, true, NeverFail, "t.old", "t") == Ok(fs);
  }
}

=== FILE: transaction.dfy ===
/**
 The deferred `FSTransaction`: `move`, `copy` and `remove` only append to the
 queue `pending` (consulting `files_differ` to drop redundant work), `commit`
 applies the queue in order, stopping at the first error with the earlier
 operations left applied, and `abort` empties the queue.

 The filesystem is a value here, so that enqueueing cannot touch it is
 visible in the types: the enqueue functions return a transaction only.
 */
module Transaction {
  import opened Fs
  import Compare
  import SafeReplace

  /** One queued operation, replayed by `commit` through `_move`, `_copy` or `_remove`. */
  datatype Op = Move(source: Path, target: Path) | Copy(source: Path, target: Path) | Remove(target: Path)

  datatype Transaction = Transaction(pending: seq<Op>)

  /** `FSTransaction()`: an empty queue. */
  function Init(): (tx: Transaction)
    ensures tx.pending == []
  {
    Transaction([])
  }

  /** `remove(target)`: always queues exactly `Remove(target)`. */
  function EnqueueRemove(tx: Transaction, target: Path): (tx': Transaction)
    ensures |tx'.pending| == |tx.pending| + 1
    ensures tx'.pending[..|tx.pending|] == tx.pending
    ensures tx'.pending[|tx.pending|] == Remove(target)
  {
    Transaction(tx.pending + [Remove(target)])
  }

  /** `move(source, target)`: queues `Move(source, target)`, or only
      `Remove(source)` when the two files already hold the same bytes. An
      error raised while comparing them propagates and queues nothing. */
  function EnqueueMove(tx: Transaction, fs: FileSystem, fail: Oracle, source: Path, target: Path): (r: Result<Transaction>)
    ensures r.Err? <==> Compare.CompareRaises(fs, fail, source, target)
    ensures r.Ok? ==>
              && |r.value.pending| == |tx.pending| + 1
              && r.value.pending[..|tx.pending|] == tx.pending
              && r.value.pending[|tx.pending|] ==
                   if Compare.SameContent(fs, fail, source, target) then Remove(source) else Move(source, target)
    ensures source !in fs || target !in fs ==> r == Ok(Transaction(tx.pending + [Move(source, target)]))
  {
    match Compare.FilesDiffer(fs, fail, source, target)
    case Err(e) => Err(e)
    case Ok(differ) =>
      if differ then Ok(Transaction(tx.pending + [Move(source, target)]))
      else Ok(EnqueueRemove(tx, source))
  }

  /** `copy(source, target)`: queues `Copy(source, target)`, or nothing at all
      when the two files already hold the same bytes. */
  function EnqueueCopy(tx: Transaction, fs: FileSystem, fail: Oracle, source: Path, target: Path): (r: Result<Transaction>)
    ensures r.Err? <==> Compare.CompareRaises(fs, fail, source, target)
    ensures r.Ok? && Compare.SameContent(fs, fail, source, target) ==> r.value == tx
    ensures r.Ok? && !Compare.SameContent(fs, fail, source, target) ==>
              r.value.pending == tx.pending + [Copy(source, target)]
    ensures source !in fs || target !in fs ==> r == Ok(Transaction(tx.pending + [Copy(source, target)]))
  {
    match Compare.FilesDiffer(fs, fail, source, target)
    case Err(e) => Err(e)
    case Ok(differ) =>
      if differ then Ok(Transaction(tx.pending + [Copy(source, target)]))
      else Ok(tx)
  }

  /** `abort()`: the queue is emptied; the filesystem is not an argument. */
  function Abort(tx: Transaction): (tx': Transaction)
    ensures tx'.pending == []
  {
    Init()
  }

  /** `_remove(target)`: `os.unlink` when the target is a regular file,
      `os.rmdir` otherwise, so that a missing target fails in `rmdir`. */
  function ApplyRemove(fs: FileSystem, fail: Oracle, target: Path): (o: Outcome)
    ensures target !in fs ==> o == Failed(fs, NotFound(target))
    ensures o.Done? <==>
              target in fs
              && (fs[target].File? ==> !fail(UnlinkCall(target)))
              && (fs[target].Dir? ==> !fail(RmdirCall(target)))
    ensures o.Done? ==> target !in o.fs && UnchangedExcept(fs, o.fs, {target})
    ensures o.Failed? ==> o.fs == fs
  {
    var r := if target in fs && fs[target].File? then Unlink(fs, fail, target) else Rmdir(fs, fail, target);
    match r
    case Ok(fs') => Done(fs')
    case Err(e) => Failed(fs, e)
  }

  /** The paths replaying `op` may change. */
  function OpTouched(op: Op): set<Path>
  {
    match op
    case Move(s, t) => SafeReplace.Touched(SafeReplace.MoveStep, s, t)
    case Copy(s, t) => SafeReplace.Touched(SafeReplace.CopyStep, s, t)
    case Remove(t) => {t}
  }

  /** The paths committing `ops` may change. */
  function QueueTouched(ops: seq<Op>): set<Path>
    decreases |ops|
  {
    if ops == [] then {} else OpTouched(ops[0]) + QueueTouched(ops[1..])
  }

  /** Replays one queued operation through the handler its tag names. */
  function ApplyOp(fs: FileSystem, win32: bool, fail: Oracle, op: Op): (o: Outcome)
    ensures op.Remove? && op.target !in fs ==> o == Failed(fs, NotFound(op.target))
    ensures op.Remove? && o.Done? ==> op.target !in o.fs
    ensures !op.Remove? && op.source !in fs && op.source != SafeReplace.Backup(op.target) ==> o.Failed?
  {
    match op
    case Move(s, t) => SafeReplace.Replace(fs, win32, fail, SafeReplace.MoveStep, s, t)
    case Copy(s, t) => SafeReplace.Replace(fs, win32, fail, SafeReplace.CopyStep, s, t)
    case Remove(t) => ApplyRemove(fs, fail, t)
  }

  /** `commit()` as a left fold of `ApplyOp` over the queue, first entry
      first, that stops at the first error. */
  function Commit(fs: FileSystem, win32: bool, fail: Oracle, ops: seq<Op>): Outcome
    decreases |ops|
  {
    if ops == [] then Done(fs)
    else
      match ApplyOp(fs, win32, fail, ops[0])
      case Done(fs') => Commit(fs', win32, fail, ops[1..])
      case Failed(fs', e) => Failed(fs', e)
  }

  /** Replaying one operation changes only the paths it names, whether it
      succeeds or fails. */
  lemma ApplyOpTouchesOnlyItsPaths(fs: FileSystem, win32: bool, fail: Oracle, op: Op)
    ensures UnchangedExcept(fs, ApplyOp(fs, win32, fail, op).fs, OpTouched(op))
  {
    match op
    case Move(s, t) => SafeReplace.ReplaceTouchesOnlyItsPaths(fs, win32, fail, SafeReplace.MoveStep, s, t);
    case Copy(s, t) => SafeReplace.ReplaceTouchesOnlyItsPaths(fs, win32, fail, SafeReplace.CopyStep, s, t);
    case Remove(t) =>
  }

  /** A commit, complete or stopped by an error, changes only paths that some
      queued operation names. */
  lemma {:induction false} CommitTouchesOnlyQueuedPaths(fs: FileSystem, win32: bool, fail: Oracle, ops: seq<Op>)
    ensures UnchangedExcept(fs, Commit(fs, win32, fail, ops).fs, QueueTouched(ops))
    decreases |ops|
  {
    if ops != [] {
      ApplyOpTouchesOnlyItsPaths(fs, win32, fail, ops[0]);
      match ApplyOp(fs, win32, fail, ops[0])
      case Done(fs') =>
        CommitTouchesOnlyQueuedPaths(fs', win32, fail, ops[1..]);
        UnchangedExceptTrans(fs, fs', Commit(fs', win32, fail, ops[1..]).fs, OpTouched(ops[0]), QueueTouched(ops[1..]));
      case Failed(_, _) =>
    }
  }

  /** Continues a commit that reached `o` with the operations `ops`. */
  function Resume(o: Outcome, win32: bool, fail: Oracle, ops: seq<Op>): Outcome
  {
    match o
    case Done(fs) => Commit(fs, win32, fail, ops)
    case Failed(_, _) => o
  }

  /** Committing a queue in two parts is committing the first part and then,
      if it succeeded, the second: the operations take effect in enqueue order. */
  lemma {:induction false} CommitAppend(fs: FileSystem, win32: bool, fail: Oracle, a: seq<Op>, b: seq<Op>)
    ensures Commit(fs, win32, fail, a + b) == Resume(Commit(fs, win32, fail, a), win32, fail, b)
    decreases |a|
  {
    if a == [] {
      assert a + b == b;
    } else {
      assert (a + b)[0] == a[0];
      assert (a + b)[1..] == a[1..] + b;
      match ApplyOp(fs, win32, fail, a[0])
      case Done(fs') => CommitAppend(fs', win32, fail, a[1..], b);
      case Failed(_, _) =>
    }
  }

  /** A failed commit names the operation that failed: every operation before
      it succeeded, the failure is exactly that operation's failure, and the
      operations after it were never applied. */
  lemma {:induction false} CommitFailureAt(fs: FileSystem, win32: bool, fail: Oracle, ops: seq<Op>) returns (k: nat)
    requires Commit(fs, win32, fail, ops).Failed?
    ensures k < |ops|
    ensures Commit(fs, win32, fail, ops[..k]).Done?
    ensures ApplyOp(Commit(fs, win32, fail, ops[..k]).fs, win32, fail, ops[k]) == Commit(fs, win32, fail, ops)
    decreases |ops|
  {
    assert ops[..0] == [];
    match ApplyOp(fs, win32, fail, ops[0])
    case Failed(_, _) =>
      k := 0;
    case Done(fs') =>
      var j := CommitFailureAt(fs', win32, fail, ops[1..]);
      k := j + 1;
      assert ops[..k] == [ops[0]] + ops[1..][..j];
      CommitAppend(fs, win32, fail, [ops[0]], ops[1..][..j]);
      assert [ops[0]][1..] == [];
      assert ops[k] == ops[1..][j];
  }

  /** Conversely, when every operation before index `k` succeeds and
      operation `k` fails, the commit fails with exactly that failure. */
  lemma CommitStopsAtFirstError(fs: FileSystem, win32: bool, fail: Oracle, ops: seq<Op>, k: nat)
    requires k < |ops|
    requires Commit(fs, win32, fail, ops[..k]).Done?
    requires ApplyOp(Commit(fs, win32, fail, ops[..k]).fs, win32, fail, ops[k]).Failed?
    ensures Commit(fs, win32, fail, ops) == ApplyOp(Commit(fs, win32, fail, ops[..k]).fs, win32, fail, ops[k])
  {
    assert ops == ops[..k] + ops[k..];
    CommitAppend(fs, win32, fail, ops[..k], ops[k..]);
    assert ops[k..][0] == ops[k];
  }

  /** `commit()` as the Python code writes it: a loop over `pending` that calls the
      handler of each entry in turn and lets its error escape. */
  method CommitLoop(fs: FileSystem, win32: bool, fail: Oracle, tx: Transaction) returns (o: Outcome)
    ensures o == Commit(fs, win32, fail, tx.pending)
  {
    var ops := tx.pending;
    var current := fs;
    var i := 0;
    while i < |ops|
      invariant 0 <= i <= |ops|
      invariant Commit(fs, win32, fail, ops[..i]) == Done(current)
    {
      var step := ApplyOp(current, win32, fail, ops[i]);
      assert ops[..i + 1] == ops[..i] + [ops[i]];
      CommitAppend(fs, win32, fail, ops[..i], [ops[i]]);
      assert [ops[i]][1..] == [];
      assert Commit(current, win32, fail, [ops[i]]) == step;
      if step.Failed? {
        CommitStopsAtFirstError(fs, win32, fail, ops, i);
        return step;
      }
      current := step.fs;
      i := i + 1;
    }
    assert ops[..i] == ops;
    o := Done(current);
  }

  /** Each `_remove`, `_move` or `_copy` that fails leaves a target that
      existed before it in place or at its backup path, and a `Remove` that
      fails leaves the filesystem untouched. */
  lemma ApplyOpFailureKeepsTarget(fs: FileSystem, win32: bool, fail: Oracle, op: Op)
    requires op.target in fs
    requires ApplyOp(fs, win32, fail, op).Failed?
    ensures var o := ApplyOp(fs, win32, fail, op);
            (op.target in o.fs && o.fs[op.target] == fs[op.target])
            || (SafeReplace.Backup(op.target) in o.fs && o.fs[SafeReplace.Backup(op.target)] == fs[op.target])
  {
  }
}
